=== FILE: README.md ===
# Image captioning app: feed, votes and upload pipeline in Dafny

This project models the client-side logic of a small image-captioning web app. Three
components hold that logic:

- **Feed** (`Feed.tsx`). The feed pages through captions joined with their images, twenty at a
  time, with infinite scroll. It keeps the signed-in user's vote (+1 or -1) on each caption.
  A vote is written by looking up the existing (user, caption) row, then updating that row or
  inserting a new one.
- **Upload form** (`ImageUploadForm.tsx`). The form checks a file's MIME type against an
  allow-list. It then runs a four-step chain against the captioning service: get an upload
  URL, PUT the bytes, register the image, generate captions. The first failure stops the
  chain.
- **Image list** (`ImagesList.tsx`). This holds two pure resolvers: the image URL and the
  image title.

All three resolve a logical field from several column spellings with JavaScript's `??`.
`??` skips only null and undefined. So an empty `text` is kept: it does not fall through to
`content`, and the caption then shows the "Caption" placeholder.

## Layout

- `js.dfy`, module `Js`: JSON values (`Value`), `??` (`Coalesce`) and `?.` (`Get`). It also
  holds `FirstPresent`, a reference definition of a `??` chain, and `ToJsString`, which models
  `String(v)`.
- `schema.dfy`, module `Schema`: the image, caption and vote rows.
- `images_list.dfy`, module `ImagesList`: the image list's two resolvers.
- `tables.dfy`, module `Tables`: the hosted tables as a `Backend` object, plus what the
  table API's range select, filters, update and insert do to them.
- `feed.dfy`, module `Feed`:
  - the feed's resolvers;
  - one fetched batch (`BatchRows`, `KeepWithImages`);
  - the vote-map loop (`CollectVotes`, specified by `VoteMapOf`);
  - the vote write (`CastVote`);
  - the component state as class `FeedState`.
- `upload.dfy`, module `Upload`:
  - the allow-list;
  - reading the replies;
  - caption normalisation;
  - the chain as a reference function `Pipeline`;
  - the component state as class `UploadForm`, whose `HandleUploadClick` is proved equal to
    `Pipeline`.

How the model represents the outside world:

- The remote tables are state (`Tables.Backend`). A query answers from their current content.
  The captions view is held in caption-id order.
- Whether a remote call failed is a parameter: `captionsFault`, `votesFault`, `lookupFault`,
  `writeFault`.
- The four HTTP replies of the upload chain are one input, `Replies`. Each reply is a
  response (status, status text, parsed JSON body) or a rejection.
- The session's user id and access token, the timestamp `now`, and whether a table client
  could be built (`configured`) are parameters too.

`loadBatch` awaits twice: the captions query (Feed.tsx:48) and then, for a signed-in user, the
vote query (Feed.tsx:77). It is modelled as two steps:

- `BeginLoad` is what runs before the first `await`.
- `FinishLoad` is everything after it, the vote query included. The gap between the two
  queries is not a separate step.

This makes the sentinel guard `hasMore && !loading` observable while a load is in flight.
`handleUploadClick` is split the same way, after `setLoading(true)` (ImageUploadForm.tsx:75):
`BeginUpload` turns the form busy, and `FinishUpload` runs the try block (the client check and
the requests) and clears the busy flag in its `finally`.

## Model

| member | source | states |
|---|---|---|
| Js.Coalesce | my-app/app/components/Feed.tsx:14 | definition: `a ?? b` is `b` exactly when `a` is null or undefined, and `a` otherwise (so "" and 0 are kept) |
| Js.Get | my-app/app/components/ImageUploadForm.tsx:103-104 | definition: `v?.key` on a parsed JSON value: an object's own field, undefined when the key is absent or the value is not an object |
| Js.AsString | my-app/app/components/Feed.tsx:15 | definition: `typeof v === "string" ? v : null`: a value exactly when `v` is a string, and then that string |
| Js.FirstPresent | my-app/app/components/Feed.tsx:19 | a `??` chain is null/undefined only when every candidate is; otherwise it is the first candidate that is neither |
| Js.CoalesceChain | my-app/app/components/Feed.tsx:19 | `a ?? b ?? c` equals the first present of the three candidates |
| Js.NatToStringRoundTrip | my-app/app/components/ImageUploadForm.tsx:100 | the status code printed into a failure message reads back as the same number |
| Js.IntToString | my-app/app/components/ImageUploadForm.tsx:100 | `${n}` for an integer: the decimal digits of `n`, with a leading "-" when negative, which parse back to its magnitude |
| Js.ToJsString | my-app/app/components/ImageUploadForm.tsx:173 | `String(v)`: a string as it is, an integer as `IntToString` prints it, an object without its own `toString` key "[object Object]", an object with one throws; an array throws exactly when converting one of its non-null elements throws |
| ImagesList.ImageUrl | my-app/app/components/ImagesList.tsx:9-12 | `url` when it is present and a string; `image_url` only when `url` is null or undefined; null when the chosen value is not a string |
| ImagesList.ImageTitle | my-app/app/components/ImagesList.tsx:14-17 | the first present of `title`, `prompt` when it is a non-empty string, else "Image"; never empty |
| ImagesList.EmptyTitleHidesPrompt | my-app/app/components/ImagesList.tsx:14-17 | an empty title yields "Image" without consulting `prompt` |
| ImagesList.UrlPreferred | my-app/app/components/ImagesList.tsx:9-12 | a string `url` wins even when `image_url` is set |
| ImagesList.NonStringUrlHidesFallback | my-app/app/components/ImagesList.tsx:9-12 | a present non-string `url` yields null rather than falling back to `image_url` |
| Tables.Range | my-app/app/components/Feed.tsx:48-52 | `.range(from, to)` returns the rows at positions `from`..`to`, in order, clipped at the end: at most `to - from + 1` rows |
| Tables.VotesOf | my-app/app/components/Feed.tsx:77-81 | the vote query returns exactly the rows of the given user whose caption is among the given ids |
| Tables.UpdateVotes | my-app/app/components/Feed.tsx:138-142 | the update sets value and modified time on every row matching (user, caption) and leaves every other row as it was |
| Tables.CountAppend | my-app/app/components/Feed.tsx:156-158 | an insert raises the row count of its own (user, caption) pair by one and of no other pair |
| Tables.CountUpdate | my-app/app/components/Feed.tsx:138-142 | an update changes no pair's row count |
| Tables.CountZero | my-app/app/components/Feed.tsx:130-135 | a lookup that counts no row for the pair means no row of the pair exists |
| Feed.ImageUrl | my-app/app/components/Feed.tsx:12-16 | null for a null image; otherwise `url` when present, else `image_url`, and null when the chosen value is not a string |
| Feed.ImageUrlAgreesWithList | my-app/app/components/Feed.tsx:12-16 | for a non-null image the feed's resolver agrees with the image list's |
| Feed.CaptionText | my-app/app/components/Feed.tsx:18-21 | the first present of `text`, `content`, `caption_text` when it is a non-empty string, else "Caption"; never empty |
| Feed.EmptyTextHidesContent | my-app/app/components/Feed.tsx:18-21 | an empty `text` yields "Caption" without consulting `content` |
| Feed.CaptionTextFallsBack | my-app/app/components/Feed.tsx:18-21 | with only `caption_text` set the caption shows it; with all three unset it shows "Caption" |
| Feed.BatchRows | my-app/app/components/Feed.tsx:48-52 | a batch has at most 20 rows, taken in order from position `from`; a short batch reaches the end of the table |
| Feed.KeepWithImages | my-app/app/components/Feed.tsx:65-71 | no more items than rows, every kept item has an image; nothing is dropped exactly when every row has its image, and then the items are the rows in order |
| Feed.ImageIndices | my-app/app/components/Feed.tsx:71 | the positions of the rows that carry an image, strictly increasing, each such position present and no other |
| Feed.KeepWithImagesInOrder | my-app/app/components/Feed.tsx:65-71 | the k-th kept item is the row at the k-th position carrying an image, and there are as many items as such positions: the filter keeps exactly those rows, in order |
| Feed.KeepWithImagesKeepsEvery | my-app/app/components/Feed.tsx:65-71 | every row that carries an image is among the kept items |
| Feed.CaptionIds | my-app/app/components/Feed.tsx:73 | one id per kept item, in order |
| Feed.DroppedRowEndsFeed | my-app/app/components/Feed.tsx:66-91 | if a full batch ever held a row without its image, fewer than 20 items would be kept and the feed would end; the inner join of line 50 sends no such row, so this bounds only the defensive filter |
| Feed.VoteMapOf | my-app/app/components/Feed.tsx:82-85 | reference definition of the map the loop builds; its own contract only bounds it to one entry per fetched row at most, its meaning is given by `VoteMapOfKeys` and `VoteMapOfLastWins` |
| Feed.VoteMapOfKeys | my-app/app/components/Feed.tsx:82-85 | a caption enters the vote map exactly when some fetched row for it holds 1 or -1 |
| Feed.VoteMapOfLastWins | my-app/app/components/Feed.tsx:82-85 | a caption's entry is the value of the last fetched row for it that holds 1 or -1 |
| Feed.VoteMapKeysAreBatchCaptions | my-app/app/components/Feed.tsx:76-85 | only captions of the current batch enter the vote map |
| Feed.CollectVotes | my-app/app/components/Feed.tsx:75-86 | the loop over the fetched rows builds exactly the vote map `VoteMapOf` describes |
| Feed.CastVote | my-app/app/components/Feed.tsx:130-164 | reference definition of the table after a successful vote: no row is removed, moved or given another pair or creation time; one row, the new vote, is added exactly when the lookup did not find exactly one; the uniqueness and recording lemmas below give its meaning |
| Feed.CastVoteKeepsUnique | my-app/app/components/Feed.tsx:130-164 | when the table has at most one row per (user, caption), a vote keeps it so and leaves exactly one row for its own pair |
| Feed.CastVoteRecords | my-app/app/components/Feed.tsx:130-164 | when the pair has at most one row before the vote, afterwards every row of its pair holds the new value and the new modification time, and every row of another pair is unchanged |
| Feed.SequentialVotesKeepUnique | my-app/app/components/Feed.tsx:130-164 | any sequence of votes, each completed before the next, keeps at most one row per (user, caption) |
| Feed.LookupErrorDuplicates | my-app/app/components/Feed.tsx:130-137 | when the lookup fails for a pair that has its row, the insert gives the pair a second row |
| Feed.FeedState.constructor | my-app/app/components/Feed.tsx:28-35 | the feed starts empty, at offset 0, not loading, with more rows assumed and no errors |
| Feed.FeedState.SentinelArmed | my-app/app/components/Feed.tsx:102 | definition: the observer is installed exactly when `hasMore` holds and no load is in flight |
| Feed.FeedState.SignedIn | my-app/app/components/Feed.tsx:76 | definition: `userId &&`: signed in exactly when there is a user id and it is not the empty string |
| Feed.FeedState.BeginLoad | my-app/app/components/Feed.tsx:38-46 | without a client only the error is set; otherwise loading is set and the error cleared, which disarms the sentinel; items, offset and votes are unchanged |
| Feed.FeedState.FinishLoad | my-app/app/components/Feed.tsx:48-92 | fetch error: error set, nothing else changes; empty batch: `hasMore` false, nothing else changes; otherwise items replaced (from 0) or extended, offset advanced by the kept count, `hasMore` iff 20 kept, fetched votes merged over old ones only when the user is signed in and ids were kept; loading cleared on every path |
| Feed.FeedState.ShowBatch | my-app/app/components/Feed.tsx:88-92 | the list is replaced or extended, new votes override old keys and keep the rest, and loading from 0 or the current offset keeps the offset equal to the item count |
| Feed.FeedState.OnSentinel | my-app/app/components/Feed.tsx:101-113 | a load of `offset` is requested exactly when the sentinel intersects while `hasMore` and not `loading`; then the error is cleared and `loading` set with a client, and "Supabase not configured." shown without one; items, offset, votes, `hasMore`, the vote error and the voting id never change; without a request nothing changes |
| Feed.FeedState.HandleVote | my-app/app/components/Feed.tsx:115-166 | no client: "Supabase not configured."; no user: "Sign in to vote."; in both cases only the vote error changes; write error: message shown, table and vote map untouched; success: the row is updated or one inserted and only `voteState[captionId]` changes; the voting id is cleared after any write; uniqueness is kept when the lookup succeeds |
| Upload.IsAcceptedType | my-app/app/components/ImageUploadForm.tsx:37 | `ACCEPTED_TYPES_LIST.includes(type)`: an accepted type is always an `image/` type |
| Upload.AcceptedTypesAreExact | my-app/app/components/ImageUploadForm.tsx:9-16 | the match is exact: `image/HEIC`, `image/heif`, `image/svg+xml` and "" are refused, `image/heic` accepted |
| Upload.StringField | my-app/app/components/ImageUploadForm.tsx:103-104 | the first spelling is used whenever it is present, the second only when the first is null or absent, and the result must be a string |
| Upload.UploadTargets | my-app/app/components/ImageUploadForm.tsx:103-107 | step 1 yields both URLs exactly when both resolve to strings |
| Upload.RegisteredId | my-app/app/components/ImageUploadForm.tsx:143-144 | step 3's image id is `imageId` when present, else `image_id`, kept only when it is a string |
| Upload.ServerMessage | my-app/app/components/ImageUploadForm.tsx:100 | a failure message is the body's `message`, else its `error`, else the status string; never null |
| Upload.StatusMessage | my-app/app/components/ImageUploadForm.tsx:100-161 | the status message opens with the step's wording, then a run of decimal digits that parses back to the status, and closes with ")", or for the PUT with "): " and the status text |
| Upload.CatchMessage | my-app/app/components/ImageUploadForm.tsx:176-177 | definition: the catch shows an `Error`'s own message, and the generic failure message for anything else |
| Upload.RawCaptionList | my-app/app/components/ImageUploadForm.tsx:164-168 | the payload itself when it is an array, else `captions ?? data` when that is an array; a present non-array `captions` fails |
| Upload.CaptionString | my-app/app/components/ImageUploadForm.tsx:169-174 | a string element is kept; another element gives `text ?? caption ?? content` when that is a string, else `String(item)`, and nothing when that conversion throws |
| Upload.CaptionStrings | my-app/app/components/ImageUploadForm.tsx:164-175 | captions exist exactly when there is a list and every element converts; then one caption per element, in order, strings unchanged |
| Upload.Passes | my-app/app/components/ImageUploadForm.tsx:98-168 | a step passes only on a 2xx response; the PUT passes exactly on a 2xx status, its body unread; registration passes exactly on a 2xx response carrying a string image id; the first step exactly on a 2xx response with both URLs as strings; the last exactly on a 2xx response whose caption list converts element by element |
| Upload.StepsPassed | my-app/app/components/ImageUploadForm.tsx:89-175 | the number of leading steps whose replies pass, each of them passing and the next one not |
| Upload.FailureOf | my-app/app/components/ImageUploadForm.tsx:98-177 | a rejection gives the caught message; a non-2xx reply gives the server's message or the step's status string (the PUT's status and text); a 2xx reply missing its field gives that step's "Invalid response" message; a caption list whose conversion throws gives the TypeError's message |
| Upload.HasToken | my-app/app/components/ImageUploadForm.tsx:83-84 | definition: `!token` fails exactly when the session has no access token or it is the empty string |
| Upload.Pipeline | my-app/app/components/ImageUploadForm.tsx:72-177 | requests go out in step order; the step after a failure is never requested; captions appear exactly when all four steps pass, and then with no error; otherwise the first failing step's error; URLs are stored only after the PUT passes and the image id only after registration passes; each request carries what the earlier replies gave |
| Upload.HappyPathScenario | my-app/app/components/ImageUploadForm.tsx:89-175 | a PNG upload with four good replies ends with captions ["a", "b"], image id "abc" and no error |
| Upload.RegisterRejectedScenario | my-app/app/components/ImageUploadForm.tsx:126-148 | a register reply of 400 `{error: "bad url"}` ends with that error, no captions, no fourth request and the old image id |
| Upload.UnconvertibleCaptionScenario | my-app/app/components/ImageUploadForm.tsx:164-177 | a caption list `[{"toString": 1}]` makes `String(item)` throw: the TypeError's message is shown, no captions, the image id is kept and four requests were sent |
| Upload.UploadForm.constructor | my-app/app/components/ImageUploadForm.tsx:20-27 | the form starts with no file, no URLs, no id, no captions, no error, not loading |
| Upload.UploadForm.ApplyFile | my-app/app/components/ImageUploadForm.tsx:31-43 | no file: nothing selected, no error; refused type: nothing selected, "Invalid file type…"; accepted type: the file is selected, no error |
| Upload.UploadForm.HandleFileChange | my-app/app/components/ImageUploadForm.tsx:45-47 | the first chosen file goes through the same validation: it is selected exactly when its type is accepted, "Invalid file type…" exactly when it is refused, and no error without a file |
| Upload.UploadForm.HandleUploadClick | my-app/app/components/ImageUploadForm.tsx:71-181 | no file selected: nothing happens; otherwise the form ends in exactly the state `Pipeline` describes, with `loading` false on every exit |
| Upload.UploadForm.CanUpload | my-app/app/components/ImageUploadForm.tsx:249 | definition: the upload button is enabled exactly when a file is selected and no upload is in flight |
| Upload.UploadForm.BeginUpload | my-app/app/components/ImageUploadForm.tsx:72-75 | without a file nothing changes; with one the error and captions are cleared and `loading` is set, so the upload button is disabled while the requests run |
| Upload.UploadForm.FinishUpload | my-app/app/components/ImageUploadForm.tsx:76-180 | from the busy state, the form ends in exactly the state `Pipeline` describes and `loading` is cleared, as the `finally` does |
| Upload.UploadForm.Attempt | my-app/app/components/ImageUploadForm.tsx:76-175 | the try block, with its early returns, issues the requests and writes the fields exactly as `Pipeline` describes |

## Behaviour of the code worth knowing

- **Lookup errors are ignored.** A failed vote lookup reads as "no row" and leads to an
  insert (Feed.tsx:130-137). `HandleVote` models this. `Feed.LookupErrorDuplicates` shows that
  the pair then gets a second row. So uniqueness is guaranteed only when lookups succeed.
- **When the feed ends.** "Has more" compares the number of items kept after the defensive
  image filter with the batch size, not the number of rows returned (Feed.tsx:91). The inner
  join (Feed.tsx:50) already drops captions without an image, so normally nothing is
  filtered. `Feed.DroppedRowEndsFeed` states what would happen if a null image still arrived.
- **Validity of the caption list.** The code checks that the raw list is an array before
  mapping it (ImageUploadForm.tsx:164-168). A failed element conversion is not an "Invalid
  response"; it throws into the catch block.
- **HEIC.** Only the exact spelling `image/heic` is accepted (ImageUploadForm.tsx:15, 37).
- **`maybeSingle()` with several rows.** When two or more rows match, `maybeSingle()`
  answers an error, and the code then inserts once more. `CastVote` reads "found" as "exactly
  one row matches".

## Left out

- Building the table client and its caching: whether a client exists is the `configured`
  constant.
- Sessions, sign-in, OAuth redirects and sign-out: the user id and access token are
  parameters. `getUser()` and `getSession()` failing or throwing is not modelled.
- Pages, layout and routing: they contain no logic of these components.
- `src/types/supabase.ts` defines only `Image`. The `Caption` and `CaptionVoteInsert` types
  that `Feed.tsx` imports are not part of this model; the rows here take their fields from how
  the components use them.
- Rendering, CSS class names, the `IntersectionObserver` object, `isDragging`, the preview URL
  (`URL.createObjectURL`/`revokeObjectURL`) and the 200px margin: they are UI. Only the
  observer's guard and callback (`OnSentinel`) are kept.
- `handleDrop` is not modelled separately: apart from the drag flag it is `HandleFileChange`.
- Real HTTP and JSON parsing: replies are inputs. A body that is not JSON is given as the
  empty object that `.catch(() => ({}))` yields.
- Timestamps: `new Date().toISOString()` is the `now` parameter.
- The mount effect that calls `loadBatch(0)`: it is `BeginLoad(0)` followed by
  `FinishLoad(0, …)`.
- Interleavings: two loads in flight at once, overlapping votes racing between lookup and
  insert, and a file chosen while an upload is in flight. Each modelled call completes before the next starts, so uniqueness is stated for
  sequential calls only.
- Js.IntToString and Js.ToJsString: numbers are unbounded integers, whereas JavaScript numbers
  are doubles. Fractional numbers are not modelled. Nor is the exponent form `String()` prints for
  magnitudes of 10^21 and above (`String(1e21)` is "1e+21"), nor the rounding of integers beyond
  2^53. Both could reach a numeric caption element at ImageUploadForm.tsx:173.
- Tables.VotesOf: the vote query (Feed.tsx:77-81) has no `.order(...)`, so the server may return
  rows in any order. The model answers in table order. When a pair has two rows (reachable, see
  `Feed.LookupErrorDuplicates`), the last-wins loop at Feed.tsx:82-85 shows whichever row the
  server sends last. `FinishLoad`'s vote-state clause fixes one order, in which the newest
  insert wins; the code does not promise that.
- Tables.Range: a range that starts past the end yields no rows. The table API may instead
  answer with an error, which the model represents only as a `captionsFault`.
- Tables.UpdateVotes and the insert in `HandleVote`: a write that reports an error is assumed
  to have changed nothing.
- Feed.FeedState.HandleVote: the intermediate state while the write is in flight
  (`votingCaptionId == captionId`, which disables the buttons) is set and cleared within the
  one atomic call, so the model does not expose it.
- Tables.JoinRow admits a caption row whose image is `None`, although the inner join sends
  none: an over-approximation kept so that the client's own filter can be stated.
- Upload.UploadForm.HandleUploadClick: while `loading` is true only the upload button is
  disabled (ImageUploadForm.tsx:249); the file input (ImageUploadForm.tsx:198-204) and the
  drop zone stay live, so `applyFile` can replace the file mid-upload. The model runs
  `FinishUpload` right after `BeginUpload` and does not interleave `ApplyFile` between them.
- Upload.ConversionFailure: the message of the TypeError that `String(item)` throws is the
  V8 engine's wording; other engines word it differently.

=== FILE: feed.dfy ===
/** The feed: a pager that loads captions joined with their images in batches of twenty,
    remembers the signed-in user's vote on each caption, and writes a vote by looking the
    existing row up and then updating it or inserting one. */
module Feed {
  import opened Js
  import opened Schema
  import opened Tables
  import ImagesList

  const BatchSize: nat := 20
  const NotConfigured := "Supabase not configured."
  const SignInToVote := "Sign in to vote."

  // ---------------------------------------------------------------- field resolvers

  /** The URL to show for an item's image: null for a missing image, else `url ?? image_url`
      when that is a string. */
  function ImageUrl(row: Option<ImageRow>): (r: Option<string>)
    ensures row.None? ==> r.None?
    ensures row.Some? && !IsNullish(row.value.url) ==> r == AsString(row.value.url)
    ensures row.Some? && IsNullish(row.value.url) ==> r == AsString(row.value.imageUrl)
  {
    match row
    case None => None
    case Some(image) => AsString(Coalesce(image.url, image.imageUrl))
  }

  /** The feed and the image list resolve an image's URL the same way. */
  lemma ImageUrlAgreesWithList(row: ImageRow)
    ensures ImageUrl(Some(row)) == ImagesList.ImageUrl(row)
  {
  }

  /** The caption's text: the first present of `text`, `content`, `caption_text` when it is a
      non-empty string, else the placeholder "Caption". */
  function CaptionText(c: CaptionRow): (r: string)
    ensures r != ""
    ensures var t := FirstPresent([c.text, c.content, c.captionText]);
      r == if t.Str? && t.s != "" then t.s else "Caption"
  {
    CoalesceChain(c.text, c.content, c.captionText);
    var t := Coalesce(Coalesce(c.text, c.content), c.captionText);
    if t.Str? && t.s != "" then t.s else "Caption"
  }

  /** An empty `text` is present: it hides `content` and yields the placeholder. */
  lemma EmptyTextHidesContent(c: CaptionRow)
    requires c.text == Str("")
    ensures CaptionText(c) == "Caption"
  {
  }

  /** With only `caption_text` set, the caption shows it; with nothing set, the placeholder. */
  lemma CaptionTextFallsBack(c: CaptionRow, s: string)
    requires IsNullish(c.text) && IsNullish(c.content)
    ensures c.captionText == Str(s) && s != "" ==> CaptionText(c) == s
    ensures IsNullish(c.captionText) ==> CaptionText(c) == "Caption"
  {
  }

  // ---------------------------------------------------------------- a fetched batch

  /** What the feed renders: a caption and its image. */
  datatype FeedItem = FeedItem(caption: CaptionRow, image: Option<ImageRow>)

  /** The rows the captions query returns for `loadBatch(from)`: `.range(from, from + 19)`. */
  function BatchRows(captions: seq<JoinRow>, from: nat): (rows: seq<JoinRow>)
    ensures |rows| <= BatchSize
    ensures forall i :: 0 <= i < |rows| ==> from + i < |captions| && rows[i] == captions[from + i]
    ensures |rows| < BatchSize ==> from + |rows| >= |captions|
  {
    Range(captions, from, from + BatchSize - 1)
  }

  /** The positions of the rows that carry an image, in increasing order: every such
      position appears, and no other. */
  function ImageIndices(rows: seq<JoinRow>): (idx: seq<nat>)
    ensures forall k :: 0 <= k < |idx| ==> idx[k] < |rows| && rows[idx[k]].images.Some?
    ensures forall k, l :: 0 <= k < l < |idx| ==> idx[k] < idx[l]
    ensures forall i :: 0 <= i < |rows| && rows[i].images.Some? ==> i in idx
  {
    if |rows| == 0 then []
    else
      var front := rows[..|rows| - 1];
      assert forall i :: 0 <= i < |front| ==> front[i] == rows[i];
      var rest := ImageIndices(front);
      if rows[|rows| - 1].images.Some? then rest + [|rows| - 1] else rest
  }

  /** `rows.map(split).filter(item => item.image != null)`. */
  function KeepWithImages(rows: seq<JoinRow>): (items: seq<FeedItem>)
    ensures |items| <= |rows|
    ensures forall i :: 0 <= i < |items| ==> items[i].image.Some?
    ensures |items| == |rows| <==> forall i :: 0 <= i < |rows| ==> rows[i].images.Some?
    ensures (forall i :: 0 <= i < |rows| ==> rows[i].images.Some?) ==>
      forall i :: 0 <= i < |rows| ==> items[i] == FeedItem(rows[i].caption, rows[i].images)
  {
    if |rows| == 0 then []
    else
      var front := rows[..|rows| - 1];
      var last := rows[|rows| - 1];
      assert forall i :: 0 <= i < |front| ==> front[i] == rows[i];
      var rest := KeepWithImages(front);
      if last.images.Some? then rest + [FeedItem(last.caption, last.images)] else rest
  }

  /** The filter keeps exactly the rows that carry an image, in their order: the k-th item is
      the row at the k-th such position. */
  lemma {:induction false} KeepWithImagesInOrder(rows: seq<JoinRow>)
    ensures var items, idx := KeepWithImages(rows), ImageIndices(rows);
      && |items| == |idx|
      && forall k :: 0 <= k < |idx| ==> items[k] == FeedItem(rows[idx[k]].caption, rows[idx[k]].images)
  {
    if |rows| > 0 {
      var front := rows[..|rows| - 1];
      assert forall i :: 0 <= i < |front| ==> front[i] == rows[i];
      KeepWithImagesInOrder(front);
    }
  }

  /** The filter keeps every row that carries an image. */
  lemma KeepWithImagesKeepsEvery(rows: seq<JoinRow>, i: nat)
    requires i < |rows| && rows[i].images.Some?
    ensures FeedItem(rows[i].caption, rows[i].images) in KeepWithImages(rows)
  {
    var idx := ImageIndices(rows);
    var k :| 0 <= k < |idx| && idx[k] == i;
    KeepWithImagesInOrder(rows);
    assert KeepWithImages(rows)[k] == FeedItem(rows[i].caption, rows[i].images);
  }

  /** `newItems.map(item => item.caption.id)` */
  function CaptionIds(items: seq<FeedItem>): (ids: seq<string>)
    ensures |ids| == |items|
    ensures forall i :: 0 <= i < |items| ==> ids[i] == items[i].caption.id
  {
    seq(|items|, i requires 0 <= i < |items| => items[i].caption.id)
  }

  /** A full page with one row lacking its image keeps fewer than twenty items, so the load
      reports the end of the feed although more rows may exist. The inner join sends no such
      row, so this happens only if a null image ever reaches the client. */
  lemma DroppedRowEndsFeed(rows: seq<JoinRow>, k: nat)
    requires |rows| == BatchSize && k < |rows| && rows[k].images.None?
    ensures |KeepWithImages(rows)| < BatchSize
  {
  }

  // ---------------------------------------------------------------- the vote map

  /** The map the loop over the fetched vote rows builds: each row whose value is 1 or -1 sets
      its caption's entry, a later row overriding an earlier one. */
  function VoteMapOf(votes: seq<VoteRow>): (m: map<string, VoteValue>)
    ensures |m| <= |votes|
  {
    if |votes| == 0 then map[]
    else
      var front := votes[..|votes| - 1];
      assert forall i :: 0 <= i < |front| ==> front[i] == votes[i];
      var m := VoteMapOf(front);
      var v := votes[|votes| - 1];
      if IsVote(v.voteValue) then m[v.captionId := v.voteValue] else m
  }

  /** A caption has an entry exactly when some fetched row for it carries 1 or -1. */
  lemma {:induction false} VoteMapOfKeys(votes: seq<VoteRow>, k: string)
    ensures k in VoteMapOf(votes) <==>
      exists i :: 0 <= i < |votes| && votes[i].captionId == k && IsVote(votes[i].voteValue)
  {
    if |votes| > 0 {
      var n := |votes| - 1;
      var front := votes[..n];
      VoteMapOfKeys(front, k);
      assert forall i :: 0 <= i < n ==> front[i] == votes[i];
    }
  }

  /** A caption's entry is the value of the last fetched row for it that carries 1 or -1. */
  lemma {:induction false} VoteMapOfLastWins(votes: seq<VoteRow>, k: string)
    requires k in VoteMapOf(votes)
    ensures exists i ::
      && 0 <= i < |votes| && votes[i].captionId == k && VoteMapOf(votes)[k] == votes[i].voteValue
      && forall j :: i < j < |votes| && votes[j].captionId == k ==> !IsVote(votes[j].voteValue)
  {
    var n := |votes| - 1;
    var front := votes[..n];
    assert forall i :: 0 <= i < n ==> front[i] == votes[i];
    var v := votes[n];
    if v.captionId == k && IsVote(v.voteValue) {
      assert VoteMapOf(votes)[k] == votes[n].voteValue;
    } else {
      VoteMapOfLastWins(front, k);
      var i :| 0 <= i < n && front[i].captionId == k && VoteMapOf(front)[k] == front[i].voteValue
        && forall j :: i < j < n && front[j].captionId == k ==> !IsVote(front[j].voteValue);
      assert votes[i].captionId == k && VoteMapOf(votes)[k] == votes[i].voteValue;
    }
  }

  /** Only captions of the batch can enter the vote map, since the query filters by them. */
  lemma VoteMapKeysAreBatchCaptions(table: seq<VoteRow>, user: string, ids: seq<string>)
    ensures forall k :: k in VoteMapOf(VotesOf(table, user, ids)) ==> k in ids
  {
    var votes := VotesOf(table, user, ids);
    forall k | k in VoteMapOf(votes) ensures k in ids {
      VoteMapOfKeys(votes, k);
      var i :| 0 <= i < |votes| && votes[i].captionId == k && IsVote(votes[i].voteValue);
      assert votes[i] in votes;
    }
  }

  /** The loop that fills `voteMap` from the fetched rows. */
  method CollectVotes(votes: seq<VoteRow>) returns (voteMap: map<string, VoteValue>)
    ensures voteMap == VoteMapOf(votes)
  {
    voteMap := map[];
    for i := 0 to |votes|
      invariant voteMap == VoteMapOf(votes[..i])
    {
      assert votes[..i + 1][..i] == votes[..i];
      var val := votes[i].voteValue;
      if val == 1 || val == -1 {
        voteMap := voteMap[votes[i].captionId := val];
      }
    }
    assert votes[..|votes|] == votes;
  }

  // ---------------------------------------------------------------- casting a vote

  /** The votes table after a vote whose lookup and write both succeed: `maybeSingle()` finds
      the row when exactly one matches, and the row is then updated; otherwise one is inserted. */
  function CastVote(rows: seq<VoteRow>, user: string, caption: string, vote: VoteValue, now: string): (r: seq<VoteRow>)
    // no row is removed or moved, and none changes its pair or creation time
    ensures |rows| <= |r| <= |rows| + 1
    ensures forall i :: 0 <= i < |rows| ==>
      r[i].profileId == rows[i].profileId && r[i].captionId == rows[i].captionId && r[i].createdAt == rows[i].createdAt
    // a row is added only when the lookup found none, and it is the new vote
    ensures |r| == |rows| + 1 <==> CountPair(rows, user, caption) != 1
    ensures |r| == |rows| + 1 ==> r[|rows|] == VoteRow(user, caption, vote, now, now)
  {
    if CountPair(rows, user, caption) == 1 then UpdateVotes(rows, user, caption, vote, now)
    else rows + [VoteRow(user, caption, vote, now, now)]
  }

  /** A vote keeps the table at most one row per pair, and leaves exactly one row for its own. */
  lemma CastVoteKeepsUnique(rows: seq<VoteRow>, user: string, caption: string, vote: VoteValue, now: string)
    requires AtMostOnePerPair(rows)
    ensures AtMostOnePerPair(CastVote(rows, user, caption, vote, now))
    ensures CountPair(CastVote(rows, user, caption, vote, now), user, caption) == 1
  {
    var r := CastVote(rows, user, caption, vote, now);
    var added := VoteRow(user, caption, vote, now, now);
    if CountPair(rows, user, caption) == 1 {
      forall u, c ensures CountPair(r, u, c) <= 1 {
        CountUpdate(rows, user, caption, vote, now, u, c);
      }
      CountUpdate(rows, user, caption, vote, now, user, caption);
    } else {
      assert CountPair(rows, user, caption) == 0;
      forall u, c ensures CountPair(r, u, c) <= 1 {
        CountAppend(rows, added, u, c);
      }
      CountAppend(rows, added, user, caption);
    }
  }

  /** After a vote every row of its pair holds the new value, and every other row is kept. */
  lemma CastVoteRecords(rows: seq<VoteRow>, user: string, caption: string, vote: VoteValue, now: string)
    requires CountPair(rows, user, caption) <= 1
    ensures var r := CastVote(rows, user, caption, vote, now);
      && |rows| <= |r|
      && (forall i :: 0 <= i < |r| && IsPair(r[i], user, caption) ==> r[i].voteValue == vote && r[i].modifiedAt == now)
      && (forall i :: 0 <= i < |rows| && !IsPair(rows[i], user, caption) ==> r[i] == rows[i])
  {
    if CountPair(rows, user, caption) == 0 {
      CountZero(rows, user, caption);
    }
  }

  /** One call of `handleVote` by a signed-in user. */
  datatype VoteCall = VoteCall(user: string, caption: string, vote: VoteValue, now: string)

  /** The votes table after a sequence of calls, each completing before the next starts. */
  function CastVotes(rows: seq<VoteRow>, calls: seq<VoteCall>): seq<VoteRow>
    decreases |calls|
  {
    if |calls| == 0 then rows
    else
      var c := calls[0];
      CastVotes(CastVote(rows, c.user, c.caption, c.vote, c.now), calls[1..])
  }

  /** Sequential votes never create a second row for a (user, caption) pair. */
  lemma {:induction false} SequentialVotesKeepUnique(rows: seq<VoteRow>, calls: seq<VoteCall>)
    requires AtMostOnePerPair(rows)
    ensures AtMostOnePerPair(CastVotes(rows, calls))
    decreases |calls|
  {
    if |calls| > 0 {
      var c := calls[0];
      CastVoteKeepsUnique(rows, c.user, c.caption, c.vote, c.now);
      SequentialVotesKeepUnique(CastVote(rows, c.user, c.caption, c.vote, c.now), calls[1..]);
    }
  }

  /** The lookup's error is not checked: when it fails, the code inserts, and a pair that
      already had its row gets a second one. */
  lemma LookupErrorDuplicates(rows: seq<VoteRow>, user: string, caption: string, vote: VoteValue, now: string)
    requires CountPair(rows, user, caption) == 1
    ensures CountPair(rows + [VoteRow(user, caption, vote, now, now)], user, caption) == 2
  {
    CountAppend(rows, VoteRow(user, caption, vote, now, now), user, caption);
  }

  // ---------------------------------------------------------------- the component's state

  ghost predicate AllHaveImages(items: seq<FeedItem>) {
    forall i :: 0 <= i < |items| ==> items[i].image.Some?
  }

  lemma AppendKeepsImages(front: seq<FeedItem>, added: seq<FeedItem>)
    requires AllHaveImages(front) && AllHaveImages(added)
    ensures AllHaveImages(front + added)
  {
  }

  /** The state of one mounted feed. `userId` is the component's prop and `configured` says
      whether a table client could be built; neither changes while the feed is mounted. */
  class FeedState {
    const userId: Option<string>
    const configured: bool
    var items: seq<FeedItem>
    var voteState: map<string, VoteValue>
    var offset: nat
    var loading: bool
    var hasMore: bool
    var error: Option<string>
    var voteError: Option<string>
    var votingCaptionId: Option<string>

    /** Every item on screen has its image. */
    ghost predicate Valid()
      reads this
    {
      AllHaveImages(items)
    }

    constructor (userId: Option<string>, configured: bool)
      ensures Valid()
      ensures this.userId == userId && this.configured == configured
      ensures items == [] && voteState == map[] && offset == 0
      ensures !loading && hasMore && error.None? && voteError.None? && votingCaptionId.None?
    {
      this.userId := userId;
      this.configured := configured;
      items := [];
      voteState := map[];
      offset := 0;
      loading := false;
      hasMore := true;
      error := None;
      voteError := None;
      votingCaptionId := None;
    }

    /** The observer is installed only while more rows may exist and no load is in flight. */
    predicate SentinelArmed(): (armed: bool)
      reads this
      ensures armed <==> hasMore && !loading
    {
      hasMore && !loading
    }

    /** `userId && …`: a null or empty user id is falsy. */
    predicate SignedIn(): (s: bool)
      ensures s <==> userId.Some? && |userId.value| > 0
    {
      userId.Some? && userId.value != ""
    }

    /** The part of `loadBatch(from)` that runs before the captions query is awaited. */
    method BeginLoad(from: nat) returns (started: bool)
      modifies this
      ensures started == configured
      ensures !configured ==> error == Some(NotConfigured) && loading == old(loading)
      ensures configured ==> loading && error.None? && !SentinelArmed()
      ensures items == old(items) && voteState == old(voteState) && offset == old(offset)
      ensures hasMore == old(hasMore) && voteError == old(voteError) && votingCaptionId == old(votingCaptionId)
    {
      if !configured {
        error := Some(NotConfigured);
        return false;
      }
      loading := true;
      error := None;
      return true;
    }

    /** The part of `loadBatch(from)` that runs once the captions query has answered from
        `db`, or failed with `captionsFault`; `votesFault` says whether the votes query failed
        (its error is ignored, as if no vote had been found). Returns whether the votes were
        queried. */
    method FinishLoad(from: nat, db: Backend, captionsFault: Option<string>, votesFault: bool)
      returns (votesQueried: bool)
      requires Valid()
      modifies this
      ensures Valid() && !loading
      ensures voteError == old(voteError) && votingCaptionId == old(votingCaptionId)
      // loading from the start or from the current offset keeps the offset equal to the
      // number of items shown
      ensures (from == 0 || from == old(offset)) && old(offset) == |old(items)| ==> offset == |items|
      // a failed query shows its message and changes nothing else
      ensures captionsFault.Some? ==>
        && error == captionsFault && !votesQueried
        && items == old(items) && offset == old(offset) && hasMore == old(hasMore)
        && voteState == old(voteState)
      // an empty batch ends the feed and changes nothing else
      ensures captionsFault.None? && BatchRows(db.captions, from) == [] ==>
        && !hasMore && !votesQueried && error == old(error)
        && items == old(items) && offset == old(offset) && voteState == old(voteState)
      // a non-empty batch replaces (from 0) or extends the list and advances the offset by
      // the number of items kept
      ensures captionsFault.None? && BatchRows(db.captions, from) != [] ==>
        var newItems := KeepWithImages(BatchRows(db.captions, from));
        && error == old(error)
        && items == (if from == 0 then newItems else old(items) + newItems)
        && offset == from + |newItems|
        && hasMore == (|newItems| == BatchSize)
        && votesQueried == (SignedIn() && |newItems| > 0)
        && voteState == old(voteState) +
             (if !votesQueried || votesFault then map[]
              else VoteMapOf(VotesOf(db.votes, userId.value, CaptionIds(newItems))))
    {
      votesQueried := false;
      if captionsFault.Some? {
        error := captionsFault;
        loading := false;
        return;
      }
      var rows := BatchRows(db.captions, from);
      if |rows| == 0 {
        hasMore := false;
        loading := false;
        return;
      }
      var newItems := KeepWithImages(rows);
      var captionIds := CaptionIds(newItems);
      var voteMap: map<string, VoteValue> := map[];
      if SignedIn() && |captionIds| > 0 {
        votesQueried := true;
        var votes := if votesFault then [] else VotesOf(db.votes, userId.value, captionIds);
        voteMap := CollectVotes(votes);
      }
      ShowBatch(from, newItems, voteMap);
    }

    /** The state updates at the end of a load that returned rows: replace or extend the list,
        merge the fetched votes over the old ones, advance the offset, decide whether more
        rows may exist, and clear the loading flag. */
    method ShowBatch(from: nat, newItems: seq<FeedItem>, voteMap: map<string, VoteValue>)
      requires Valid() && AllHaveImages(newItems)
      modifies this`items, this`voteState, this`offset, this`hasMore, this`loading
      ensures Valid() && !loading
      ensures items == if from == 0 then newItems else old(items) + newItems
      ensures voteState == old(voteState) + voteMap
      ensures offset == from + |newItems| && hasMore == (|newItems| == BatchSize)
      ensures (from == 0 || from == old(offset)) && old(offset) == |old(items)| ==> offset == |items|
    {
      if from == 0 {
        items := newItems;
      } else {
        AppendKeepsImages(items, newItems);
        items := items + newItems;
      }
      voteState := voteState + voteMap;
      offset := from + |newItems|;
      hasMore := |newItems| == BatchSize;
      loading := false;
    }

    /** The observer's callback: when the sentinel intersects and the observer is installed,
        `loadBatch(offset)` starts. Returns the offset requested, if any. */
    method OnSentinel(intersecting: bool) returns (requested: Option<nat>)
      modifies this
      ensures requested.Some? <==> intersecting && old(SentinelArmed())
      ensures requested.Some? ==> requested.value == old(offset)
      ensures requested.Some? && configured ==> loading && !SentinelArmed()
      ensures requested.Some? ==>
        && error == (if configured then None else Some(NotConfigured))
        && loading == (configured || old(loading))
      ensures requested.None? ==> unchanged(this)
      ensures items == old(items) && offset == old(offset) && voteState == old(voteState)
      ensures hasMore == old(hasMore) && voteError == old(voteError) && votingCaptionId == old(votingCaptionId)
    {
      if intersecting && hasMore && !loading {
        requested := Some(offset);
        var _ := BeginLoad(offset);
      } else {
        requested := None;
      }
    }

    /** `handleVote(captionId, vote)`: `user` is what the session lookup answered, `now` the
        timestamp written, `lookupFault` whether the existing-row query failed, and
        `writeFault` the error of the update or insert, if any. */
    method HandleVote(captionId: string, vote: VoteValue, db: Backend, user: Option<string>, now: string,
                      lookupFault: bool, writeFault: Option<string>)
      modifies this, db
      ensures items == old(items) && offset == old(offset) && hasMore == old(hasMore)
      ensures loading == old(loading) && error == old(error) && db.captions == old(db.captions)
      // without a client or a user, only the vote error changes
      ensures !configured || user.None? ==>
        && voteError == Some(if !configured then NotConfigured else SignInToVote)
        && voteState == old(voteState) && db.votes == old(db.votes)
        && votingCaptionId == old(votingCaptionId)
      ensures configured && user.Some? ==> votingCaptionId.None?
      // a failed write shows its message and changes neither the table nor the vote map
      ensures configured && user.Some? && writeFault.Some? ==>
        voteError == writeFault && voteState == old(voteState) && db.votes == old(db.votes)
      // a successful write records the vote remotely and for exactly this caption locally
      ensures configured && user.Some? && writeFault.None? ==>
        && voteError.None?
        && voteState == old(voteState)[captionId := vote]
        && db.votes == (if lookupFault then old(db.votes) + [VoteRow(user.value, captionId, vote, now, now)]
                        else CastVote(old(db.votes), user.value, captionId, vote, now))
      ensures configured && user.Some? && !lookupFault && AtMostOnePerPair(old(db.votes)) ==>
        AtMostOnePerPair(db.votes)
    {
      if !configured {
        voteError := Some(NotConfigured);
        return;
      }
      if user.None? {
        voteError := Some(SignInToVote);
        return;
      }
      var profileId := user.value;
      voteError := None;
      votingCaptionId := Some(captionId);
      // maybeSingle(): a row only when exactly one matches; an error reads as no row
      var existing := !lookupFault && CountPair(db.votes, profileId, captionId) == 1;
      if existing {
        if writeFault.None? {
          db.votes := UpdateVotes(db.votes, profileId, captionId, vote, now);
        }
        votingCaptionId := None;
        if writeFault.Some? {
          voteError := writeFault;
          return;
        }
      } else {
        if writeFault.None? {
          db.votes := db.votes + [VoteRow(profileId, captionId, vote, now, now)];
        }
        votingCaptionId := None;
        if writeFault.Some? {
          voteError := writeFault;
          return;
        }
      }
      if !lookupFault && AtMostOnePerPair(old(db.votes)) {
        CastVoteKeepsUnique(old(db.votes), profileId, captionId, vote, now);
      }
      voteState := voteState[captionId := vote];
    }
  }
}

=== FILE: images_list.dfy ===
/** The two field-fallback resolvers of the image list. */
module ImagesList {
  import opened Js
  import opened Schema

  /** The image's public URL: `url ?? image_url`, kept only when it is a string. */
  function ImageUrl(row: ImageRow): (r: Option<string>)
    ensures !IsNullish(row.url) ==> r == AsString(row.url)
    ensures IsNullish(row.url) ==> r == AsString(row.imageUrl)
  {
    AsString(Coalesce(row.url, row.imageUrl))
  }

  /** The displayed title: the first present of `title`, `prompt` when it is a non-empty
      string, else "Image". */
  function ImageTitle(row: ImageRow): (r: string)
    ensures r != ""
    ensures var t := FirstPresent([row.title, row.prompt]);
      r == if t.Str? && t.s != "" then t.s else "Image"
  {
    CoalescePair(row.title, row.prompt);
    var t := Coalesce(row.title, row.prompt);
    if t.Str? && t.s != "" then t.s else "Image"
  }

  /** An empty title is present, so `??` does not fall through to the prompt. */
  lemma EmptyTitleHidesPrompt(row: ImageRow)
    requires row.title == Str("")
    ensures ImageTitle(row) == "Image"
  {
  }

  /** A string URL wins even when `image_url` is also set. */
  lemma UrlPreferred(row: ImageRow, u: string)
    requires row.url == Str(u)
    ensures ImageUrl(row) == Some(u)
  {
  }

  /** A present URL that is not a string hides `image_url`: the result is null. */
  lemma NonStringUrlHidesFallback(row: ImageRow)
    requires !IsNullish(row.url) && !row.url.Str?
    ensures ImageUrl(row) == None
  {
  }
}

=== FILE: js.dfy ===
/** JavaScript values as the components receive them (a parsed JSON body or a table row
    column), and the operators the components apply to them: `??`, `?.`, `typeof … === "string"`
    and `String(…)`. */
module Js {

  datatype Option<T> = None | Some(value: T)

  /** A JavaScript value. Numbers are modelled as integers. */
  datatype Value =
    | Undefined
    | Null
    | Bool(b: bool)
    | Num(n: int)
    | Str(s: string)
    | Arr(elems: seq<Value>)
    | Obj(fields: map<string, Value>)

  /** The values `??` and `?.` skip: null and undefined (and nothing else, not "" nor 0). */
  predicate IsNullish(v: Value) {
    v.Undefined? || v.Null?
  }

  /** `a ?? b` */
  function Coalesce(a: Value, b: Value): (r: Value)
    ensures IsNullish(a) ==> r == b
    ensures !IsNullish(a) ==> r == a
  {
    if IsNullish(a) then b else a
  }

  /** `v?.key` on a value read from JSON: only an object has own properties. */
  function Get(v: Value, key: string): (r: Value)
    ensures !v.Obj? ==> r == Undefined
    ensures v.Obj? ==> r == if key in v.fields then v.fields[key] else Undefined
  {
    if v.Obj? && key in v.fields then v.fields[key] else Undefined
  }

  /** `typeof v === "string" ? v : null` */
  function AsString(v: Value): (r: Option<string>)
    ensures r.Some? <==> v.Str?
    ensures r.Some? ==> r.value == v.s
  {
    if v.Str? then Some(v.s) else None
  }

  /** Reference definition of the chain `c[0] ?? c[1] ?? … ?? c[n-1]`: the first candidate that
      is neither null nor undefined; when every candidate is, the last one. */
  function FirstPresent(c: seq<Value>): (r: Value)
    requires |c| > 0
    ensures IsNullish(r) <==> forall i :: 0 <= i < |c| ==> IsNullish(c[i])
    ensures !IsNullish(r) ==>
      exists i :: 0 <= i < |c| && r == c[i] && forall j :: 0 <= j < i ==> IsNullish(c[j])
  {
    if |c| == 1 || !IsNullish(c[0]) then
      c[0]
    else
      var r := FirstPresent(c[1..]);
      assert forall i :: 1 <= i < |c| ==> c[i] == c[1..][i - 1];
      r
  }

  /** `a ?? b ?? c` is the first present of the three; `??` skips only null and undefined. */
  lemma {:induction false} CoalesceChain(a: Value, b: Value, c: Value)
    ensures Coalesce(Coalesce(a, b), c) == FirstPresent([a, b, c])
  {
    assert [a, b, c][1..] == [b, c];
    CoalescePair(b, c);
  }

  lemma {:induction false} CoalescePair(a: Value, b: Value)
    ensures Coalesce(a, b) == FirstPresent([a, b])
  {
    assert [a, b][1..] == [b];
  }

  /** `String(v)`, or `None` where it throws a TypeError. An object converts through its
      `toString`: without an own `toString` key it inherits the one that prints
      "[object Object]"; an own `toString` key parsed from JSON is never callable, and the
      `valueOf` tried next returns the object itself, so the conversion throws. An array joins
      its elements with ",", printing null and undefined elements as empty strings, and throws
      when converting an element throws. */
  function ToJsString(v: Value): (r: Option<string>)
    ensures v.Str? ==> r == Some(v.s)
    ensures v.Num? ==> r == Some(IntToString(v.n))
    ensures v.Obj? ==> r == if "toString" in v.fields then None else Some("[object Object]")
    ensures v.Arr? ==> (r.None? <==>
      exists i :: 0 <= i < |v.elems| && !IsNullish(v.elems[i]) && ToJsString(v.elems[i]).None?)
    ensures !v.Arr? && !v.Obj? ==> r.Some?
    decreases v
  {
    match v
    case Undefined => Some("undefined")
    case Null => Some("null")
    case Bool(b) => Some(if b then "true" else "false")
    case Num(n) => Some(IntToString(n))
    case Str(s) => Some(s)
    case Arr(elems) =>
      var parts := seq(|elems|, i requires 0 <= i < |elems| =>
        if IsNullish(elems[i]) then Some("") else ToJsString(elems[i]));
      assert forall i :: 0 <= i < |elems| && !IsNullish(elems[i]) ==> parts[i] == ToJsString(elems[i]);
      if forall i | 0 <= i < |parts| :: parts[i].Some? then
        Some(JoinWithCommas(seq(|parts|, i requires 0 <= i < |parts| && parts[i].Some? => parts[i].value)))
      else
        None
    case Obj(fields) => if "toString" in fields then None else Some("[object Object]")
  }

  function JoinWithCommas(parts: seq<string>): string {
    if |parts| == 0 then ""
    else if |parts| == 1 then parts[0]
    else parts[0] + "," + JoinWithCommas(parts[1..])
  }

  /** Decimal rendering of an integer, as `${n}` and `String(n)` print one of magnitude below
      10^21 that a double holds exactly (larger ones print in exponent form or rounded). */
  function IntToString(n: int): (s: string)
    ensures n >= 0 ==> s == NatToString(n) && ParseNat(s) == n
    ensures n < 0 ==> |s| > 1 && s[0] == '-' && s[1..] == NatToString(-n) && ParseNat(s[1..]) == -n
  {
    NatToStringRoundTrip(if n < 0 then -n else n);
    if n < 0 then assert ("-" + NatToString(-n))[1..] == NatToString(-n); "-" + NatToString(-n)
    else NatToString(n)
  }

  function Digit(d: nat): char
    requires d < 10
  {
    "0123456789"[d]
  }

  function DigitValue(c: char): nat {
    if '0' <= c <= '9' then (c as int - '0' as int) as nat else 0
  }

  function NatToString(n: nat): (s: string)
    ensures |s| > 0
    ensures forall i :: 0 <= i < |s| ==> '0' <= s[i] <= '9'
    decreases n
  {
    if n < 10 then [Digit(n)] else NatToString(n / 10) + [Digit(n % 10)]
  }

  /** Reads a string of decimal digits back (the partner of NatToString). */
  function ParseNat(s: string): nat {
    if |s| == 0 then 0 else ParseNat(s[..|s| - 1]) * 10 + DigitValue(s[|s| - 1])
  }

  /** The rendering of a status code is faithful: reading it back gives the same number. */
  lemma {:induction false} NatToStringRoundTrip(n: nat)
    ensures ParseNat(NatToString(n)) == n
  {
    var s := NatToString(n);
    if n < 10 {
      assert s[..0] == [];
    } else {
      var p := NatToString(n / 10);
      assert s[..|s| - 1] == p;
      NatToStringRoundTrip(n / 10);
    }
  }
}

=== FILE: schema.dfy ===
/** The rows the components read from and write to the hosted tables. Every column that the
    code resolves through a fallback is kept as a raw `Js.Value`, since a column may be
    absent (undefined), null, or of an unexpected type. */
module Schema {
  import opened Js

  /** A row of the `images` table; the public URL is spelled `url` or `image_url`, the title
      `title` or `prompt`. */
  datatype ImageRow = ImageRow(id: string, url: Value, imageUrl: Value, title: Value, prompt: Value)

  /** A row of the `captions` table; the text is spelled `text`, `content` or `caption_text`. */
  datatype CaptionRow = CaptionRow(id: string, imageId: string, text: Value, content: Value, captionText: Value)

  /** The only vote values the feed keeps or writes: an up-vote 1 or a down-vote -1. */
  predicate IsVote(x: int) {
    x == 1 || x == -1
  }

  type VoteValue = v: int | IsVote(v) witness 1

  /** A row of the `caption_votes` table, keyed in intent by (profileId, captionId). */
  datatype VoteRow = VoteRow(
    profileId: string,
    captionId: string,
    voteValue: int,
    createdAt: string,
    modifiedAt: string)
}

=== FILE: tables.dfy ===
/** The hosted tables the feed talks to, and what the table API's queries and writes do to
    them: a range select over the ordered captions view, an equality/membership filter over
    the votes table, an update of every row matching two equalities, and an insert. */
module Tables {
  import opened Js
  import opened Schema

  /** A caption joined with its image by `images!inner(*)`. The inner join already leaves out
      captions without an image, so the server sends no row whose image side is null; the
      model still admits `None` there, an over-approximation that lets the client's own
      defensive filter be stated. */
  datatype JoinRow = JoinRow(caption: CaptionRow, images: Option<ImageRow>)

  /** The remote state: the captions view, ordered by caption id, and the votes table. */
  class Backend {
    var captions: seq<JoinRow>
    var votes: seq<VoteRow>

    constructor (captions: seq<JoinRow>, votes: seq<VoteRow>)
      ensures this.captions == captions && this.votes == votes
    {
      this.captions := captions;
      this.votes := votes;
    }
  }

  function Min(a: int, b: int): int {
    if a <= b then a else b
  }

  /** `.range(from, to)`: the rows at positions `from` to `to` inclusive, clipped to the end
      of the result. */
  function Range<T>(rows: seq<T>, from: nat, to: int): (r: seq<T>)
    ensures to < from ==> r == []
    ensures from <= to ==> |r| == if from < |rows| then Min(to + 1, |rows|) - from else 0
    ensures |r| <= if to < from then 0 else to - from + 1
    ensures forall i :: 0 <= i < |r| ==> from + i < |rows| && r[i] == rows[from + i]
  {
    if to < from || |rows| <= from then [] else rows[from..Min(to + 1, |rows|)]
  }

  /** `.eq("profile_id", user).in("caption_id", ids)` on the votes table. */
  function VotesOf(rows: seq<VoteRow>, user: string, ids: seq<string>): (r: seq<VoteRow>)
    ensures |r| <= |rows|
    ensures forall v :: v in r <==> v in rows && v.profileId == user && v.captionId in ids
  {
    if |rows| == 0 then []
    else
      var rest := VotesOf(rows[1..], user, ids);
      assert forall v :: v in rows <==> v == rows[0] || v in rows[1..];
      if rows[0].profileId == user && rows[0].captionId in ids then [rows[0]] + rest else rest
  }

  predicate IsPair(v: VoteRow, user: string, caption: string) {
    v.profileId == user && v.captionId == caption
  }

  /** The number of rows a `.eq("profile_id", user).eq("caption_id", caption)` filter sees. */
  function CountPair(rows: seq<VoteRow>, user: string, caption: string): nat {
    if |rows| == 0 then 0
    else (if IsPair(rows[0], user, caption) then 1 else 0) + CountPair(rows[1..], user, caption)
  }

  /** The intended invariant of the votes table: at most one row per (user, caption). */
  ghost predicate AtMostOnePerPair(rows: seq<VoteRow>) {
    forall user, caption :: CountPair(rows, user, caption) <= 1
  }

  /** `.update({vote_value, modified_datetime_utc}).eq("profile_id", user).eq("caption_id", caption)`:
      every matching row takes the new value and timestamp; nothing else changes. */
  function UpdateVotes(rows: seq<VoteRow>, user: string, caption: string, vote: int, now: string): (r: seq<VoteRow>)
    ensures |r| == |rows|
    ensures forall i :: 0 <= i < |rows| ==>
      r[i] == if IsPair(rows[i], user, caption) then rows[i].(voteValue := vote, modifiedAt := now) else rows[i]
  {
    if |rows| == 0 then []
    else
      var head := if IsPair(rows[0], user, caption) then rows[0].(voteValue := vote, modifiedAt := now) else rows[0];
      [head] + UpdateVotes(rows[1..], user, caption, vote, now)
  }

  /** An insert adds one to the count of its own pair and to no other. */
  lemma {:induction false} CountAppend(rows: seq<VoteRow>, v: VoteRow, user: string, caption: string)
    ensures CountPair(rows + [v], user, caption)
         == CountPair(rows, user, caption) + if IsPair(v, user, caption) then 1 else 0
  {
    if |rows| > 0 {
      assert (rows + [v])[1..] == rows[1..] + [v];
      CountAppend(rows[1..], v, user, caption);
    } else {
      assert (rows + [v])[1..] == [];
    }
  }

  /** An update keeps (user, caption) on every row, so it changes no pair's count. */
  lemma {:induction false} CountUpdate(rows: seq<VoteRow>, u: string, c: string, vote: int, now: string,
                                       user: string, caption: string)
    ensures CountPair(UpdateVotes(rows, u, c, vote, now), user, caption) == CountPair(rows, user, caption)
  {
    if |rows| > 0 {
      var r := UpdateVotes(rows, u, c, vote, now);
      assert r[1..] == UpdateVotes(rows[1..], u, c, vote, now);
      CountUpdate(rows[1..], u, c, vote, now, user, caption);
    }
  }

  /** A row of the pair counts towards it: a count of zero means no row of the pair exists. */
  lemma {:induction false} CountZero(rows: seq<VoteRow>, user: string, caption: string)
    requires CountPair(rows, user, caption) == 0
    ensures forall i :: 0 <= i < |rows| ==> !IsPair(rows[i], user, caption)
  {
    if |rows| > 0 {
      CountZero(rows[1..], user, caption);
      assert forall i :: 1 <= i < |rows| ==> rows[i] == rows[1..][i - 1];
    }
  }
}

=== FILE: upload.dfy ===
/** The image upload form: a file is checked against an allow-list of image types, then a
    four-step call chain against the captioning service takes it to a list of captions:
    (1) ask for a one-time upload URL and a public CDN URL, (2) PUT the bytes to the upload
    URL, (3) register the CDN URL as an image, (4) generate captions for the image id. The
    first failure ends the chain with a message. */
module Upload {
  import opened Js

  const AcceptedTypes: seq<string> :=
    ["image/jpeg", "image/jpg", "image/png", "image/webp", "image/gif", "image/heic"]

  const InvalidFileType := "Invalid file type. Use JPEG, PNG, WebP, GIF, or HEIC."
  const NotConfigured := "Supabase not configured."
  const NotSignedIn := "Not signed in. Sign in to upload."
  const MissingUrls := "Invalid response: missing presignedUrl or cdnUrl"
  const MissingImageId := "Invalid response: missing imageId"
  const NotAnArray := "Invalid response: expected array of captions"
  const UnexpectedFailure := "Failed to get presigned URL, upload, register, or generate captions"
  /** The message of the TypeError `String(o)` throws for an object it cannot convert (the
      wording of the V8 engine). */
  const ConversionFailure := "Cannot convert object to primitive value"

  datatype File = File(name: string, mimeType: string, size: nat)

  /** `ACCEPTED_TYPES_LIST.includes(type)`: an exact, case-sensitive match. */
  function IsAcceptedType(mimeType: string): (ok: bool)
    ensures ok ==> |mimeType| > 6 && mimeType[..6] == "image/"
  {
    mimeType in AcceptedTypes
  }

  /** Only the listed spellings pass: no case folding, no related types. */
  lemma AcceptedTypesAreExact()
    ensures !IsAcceptedType("image/HEIC") && !IsAcceptedType("image/heif") && !IsAcceptedType("")
    ensures !IsAcceptedType("image/svg+xml") && IsAcceptedType("image/heic")
  {
  }

  // ---------------------------------------------------------------- the calls

  /** The requests of the chain, in the order they are issued. `token` is the session's access
      token sent as a bearer credential. */
  datatype Request =
    | GetUploadUrl(token: string, contentType: string)
    | PutBytes(url: string, contentType: string)
    | RegisterImage(token: string, imageUrl: string, isCommonUse: bool)
    | GenerateCaptions(token: string, imageId: string)

  /** The position of a request in the chain. */
  function StepOf(r: Request): nat {
    match r
    case GetUploadUrl(_, _) => 1
    case PutBytes(_, _) => 2
    case RegisterImage(_, _, _) => 3
    case GenerateCaptions(_, _) => 4
  }

  /** What a `fetch` produced: a response whose body `res.json()` parsed (an empty object when
      it was not JSON), or a rejection, carrying the message when it was an `Error`. */
  datatype Reply =
    | Responded(status: nat, statusText: string, body: Value)
    | Threw(message: Option<string>)
  {
    /** `res.ok` */
    predicate Ok() {
      Responded? && 200 <= status <= 299
    }
  }

  /** The replies the service would give to the four requests. */
  datatype Replies = Replies(presign: Reply, put: Reply, register: Reply, generate: Reply)

  function ReplyAt(rs: Replies, step: nat): Reply
    requires 1 <= step <= 4
  {
    if step == 1 then rs.presign else if step == 2 then rs.put else if step == 3 then rs.register else rs.generate
  }

  // ---------------------------------------------------------------- reading the replies

  /** `body?.[first] ?? body?.[second]`, kept only when it is a string. */
  function StringField(body: Value, first: string, second: string): (r: Option<string>)
    ensures !IsNullish(Get(body, first)) ==> r == AsString(Get(body, first))
    ensures IsNullish(Get(body, first)) ==> r == AsString(Get(body, second))
  {
    AsString(Coalesce(Get(body, first), Get(body, second)))
  }

  /** Step 1's answer: the upload URL and the CDN URL, both strings, in either spelling. */
  function UploadTargets(body: Value): (r: Option<(string, string)>)
    ensures r.Some? <==>
      StringField(body, "presignedUrl", "presigned_url").Some? && StringField(body, "cdnUrl", "cdn_url").Some?
    ensures r.Some? ==>
      r.value == (StringField(body, "presignedUrl", "presigned_url").value, StringField(body, "cdnUrl", "cdn_url").value)
  {
    var url := StringField(body, "presignedUrl", "presigned_url");
    var cdn := StringField(body, "cdnUrl", "cdn_url");
    if url.Some? && cdn.Some? then Some((url.value, cdn.value)) else None
  }

  /** Step 3's answer: `imageId ?? image_id` when it is a string. */
  function RegisteredId(body: Value): (r: Option<string>)
    ensures !IsNullish(Get(body, "imageId")) ==> r == AsString(Get(body, "imageId"))
    ensures IsNullish(Get(body, "imageId")) ==> r == AsString(Get(body, "image_id"))
  {
    StringField(body, "imageId", "image_id")
  }

  /** `body?.message ?? body?.error ?? fallback`: the server's own message is preferred. The
      result may be any present value, not only a string. */
  function ServerMessage(body: Value, fallback: string): (r: Value)
    ensures !IsNullish(r)
    ensures !IsNullish(Get(body, "message")) ==> r == Get(body, "message")
    ensures IsNullish(Get(body, "message")) && !IsNullish(Get(body, "error")) ==> r == Get(body, "error")
    ensures IsNullish(Get(body, "message")) && IsNullish(Get(body, "error")) ==> r == Str(fallback)
  {
    Coalesce(Coalesce(Get(body, "message"), Get(body, "error")), Str(fallback))
  }

  /** The catch block: `err instanceof Error ? err.message : <generic message>`. */
  function CatchMessage(message: Option<string>): (r: string)
    ensures message.Some? ==> r == message.value
    ensures message.None? ==> r == UnexpectedFailure
  {
    if message.Some? then message.value else UnexpectedFailure
  }

  // ---------------------------------------------------------------- caption normalisation

  /** `Array.isArray(p) ? p : p?.captions ?? p?.data`, when that is an array. */
  function RawCaptionList(payload: Value): (r: Option<seq<Value>>)
    ensures payload.Arr? ==> r == Some(payload.elems)
    ensures !payload.Arr? && Get(payload, "captions").Arr? ==> r == Some(Get(payload, "captions").elems)
    ensures !payload.Arr? && IsNullish(Get(payload, "captions")) ==>
      r == if Get(payload, "data").Arr? then Some(Get(payload, "data").elems) else None
    ensures !payload.Arr? && !IsNullish(Get(payload, "captions")) && !Get(payload, "captions").Arr? ==> r.None?
  {
    var list := if payload.Arr? then payload else Coalesce(Get(payload, "captions"), Get(payload, "data"));
    if list.Arr? then Some(list.elems) else None
  }

  /** One element of the list as a caption: a string as it is; otherwise the first present of
      `text`, `caption`, `content` when that is a string, else `String(item)`; `None` when that
      conversion throws. */
  function CaptionString(item: Value): (r: Option<string>)
    ensures item.Str? ==> r == Some(item.s)
    ensures !item.Str? ==>
      var t := FirstPresent([Get(item, "text"), Get(item, "caption"), Get(item, "content")]);
      r == if t.Str? then Some(t.s) else ToJsString(item)
  {
    if item.Str? then Some(item.s)
    else
      CoalesceChain(Get(item, "text"), Get(item, "caption"), Get(item, "content"));
      var v := Coalesce(Coalesce(Coalesce(Get(item, "text"), Get(item, "caption")), Get(item, "content")), item);
      if v.Str? then Some(v.s) else ToJsString(item)
  }

  /** Step 4's answer normalised: one caption per element of the list, in order, strings
      unchanged; nothing when the payload holds no array or when converting an element
      throws. */
  function CaptionStrings(payload: Value): (r: Option<seq<string>>)
    ensures r.Some? <==>
      RawCaptionList(payload).Some? &&
      forall i :: 0 <= i < |RawCaptionList(payload).value| ==> CaptionString(RawCaptionList(payload).value[i]).Some?
    ensures r.Some? ==>
      var raw := RawCaptionList(payload).value;
      && |r.value| == |raw|
      && (forall i :: 0 <= i < |raw| ==> Some(r.value[i]) == CaptionString(raw[i]))
      && (forall i :: 0 <= i < |raw| && raw[i].Str? ==> r.value[i] == raw[i].s)
  {
    match RawCaptionList(payload)
    case None => None
    case Some(raw) =>
      if forall i | 0 <= i < |raw| :: CaptionString(raw[i]).Some? then
        Some(seq(|raw|, i requires 0 <= i < |raw| && CaptionString(raw[i]).Some? => CaptionString(raw[i]).value))
      else
        None
  }

  // ---------------------------------------------------------------- the chain, step by step

  /** Whether a step's reply lets the chain go on: a 2xx response whose body carries what the
      step reads from it. */
  predicate Passes(step: nat, r: Reply): (ok: bool)
    requires 1 <= step <= 4
    ensures ok ==> r.Responded? && 200 <= r.status <= 299
    // the PUT's body is never read: its status alone decides
    ensures step == 2 ==> (ok <==> r.Ok())
    ensures step == 3 ==> (ok <==> r.Ok() && RegisteredId(r.body).Some?)
    // a 2xx reply without both URLs, or without a caption list that converts, fails
    ensures step == 1 ==> (ok <==> r.Ok() && UploadTargets(r.body).Some?)
    ensures step == 4 ==> (ok <==> r.Ok() && CaptionStrings(r.body).Some?)
  {
    && r.Ok()
    && (step == 1 ==> UploadTargets(r.body).Some?)
    && (step == 3 ==> RegisteredId(r.body).Some?)
    && (step == 4 ==> CaptionStrings(r.body).Some?)
  }

  /** The number of leading steps whose replies pass. */
  function StepsPassed(rs: Replies): (n: nat)
    ensures n <= 4
    ensures forall k :: 1 <= k <= n ==> Passes(k, ReplyAt(rs, k))
    ensures n < 4 ==> !Passes(n + 1, ReplyAt(rs, n + 1))
  {
    if !Passes(1, rs.presign) then 0
    else if !Passes(2, rs.put) then 1
    else if !Passes(3, rs.register) then 2
    else if !Passes(4, rs.generate) then 3
    else 4
  }

  /** The wording that opens the status-derived message of `step`. */
  function StatusWording(step: nat): string {
    if step == 1 then "Request failed ("
    else if step == 2 then "Upload failed ("
    else if step == 3 then "Register failed ("
    else "Generate captions failed ("
  }

  /** The status-derived message of a non-2xx response at `step`: the step's wording, the
      decimal status code, which reads back as the status, and for the PUT the status text. */
  function StatusMessage(step: nat, r: Reply): (m: string)
    requires r.Responded?
    ensures var w, code := StatusWording(step), NatToString(r.status);
      && |w| + |code| < |m|
      && m[..|w|] == w
      && (forall i :: |w| <= i < |w| + |code| ==> '0' <= m[i] <= '9')
      && ParseNat(m[|w|..|w| + |code|]) == r.status
      && m[|w| + |code|..] == if step == 2 then "): " + r.statusText else ")"
  {
    var w, code := StatusWording(step), NatToString(r.status);
    var m := w + code + (if step == 2 then "): " + r.statusText else ")");
    assert m[..|w|] == w;
    assert m[|w|..|w| + |code|] == code;
    assert m[|w| + |code|..] == if step == 2 then "): " + r.statusText else ")";
    NatToStringRoundTrip(r.status);
    m
  }

  /** The error a failing reply at `step` leaves: the caught message for a rejection; for a
      non-2xx response the server's message (the PUT's body is not read); otherwise the
      step's "Invalid response" message. */
  function FailureOf(step: nat, r: Reply): (e: Value)
    requires 1 <= step <= 4 && !Passes(step, r)
    ensures r.Threw? ==> e == Str(CatchMessage(r.message))
    ensures r.Responded? && !r.Ok() && step != 2 ==> e == ServerMessage(r.body, StatusMessage(step, r))
    ensures r.Responded? && !r.Ok() && step == 2 ==> e == Str(StatusMessage(2, r))
    ensures r.Ok() ==> step != 2 && e == Str(
      if step == 1 then MissingUrls
      else if step == 3 then MissingImageId
      else if RawCaptionList(r.body).None? then NotAnArray
      else CatchMessage(Some(ConversionFailure)))
  {
    match r
    case Threw(message) => Str(CatchMessage(message))
    case Responded(_, _, body) =>
      if !r.Ok() then
        if step == 2 then Str(StatusMessage(2, r)) else ServerMessage(body, StatusMessage(step, r))
      else
        Str(if step == 1 then MissingUrls
            else if step == 3 then MissingImageId
            else if RawCaptionList(body).None? then NotAnArray
            else CatchMessage(Some(ConversionFailure)))
  }

  /** The fields of the form that the chain writes. */
  datatype Fields = Fields(
    error: Option<Value>,
    captions: Option<seq<string>>,
    presignedUrl: Option<string>,
    cdnUrl: Option<string>,
    imageId: Option<string>)

  /** The requests a run issued and the fields it left. */
  datatype Run = Run(sent: seq<Request>, fields: Fields)

  /** `!token`: a missing or empty token is falsy. */
  predicate HasToken(token: Option<string>): (ok: bool)
    ensures ok <==> token.Some? && |token.value| > 0
  {
    token.Some? && token.value != ""
  }

  /** An upload of `file` from the fields `prior`: the error and the captions are cleared,
      then the try block runs. Returns the requests issued and the fields left. */
  function Pipeline(configured: bool, file: File, token: Option<string>, rs: Replies, prior: Fields): (run: Run)
    ensures |run.sent| <= 4
    ensures forall k :: 0 <= k < |run.sent| ==> StepOf(run.sent[k]) == k + 1
    // nothing is requested without a client and a token
    ensures !configured || !HasToken(token) ==>
      && run.sent == []
      && run.fields == prior.(error := Some(Str(if !configured then NotConfigured else NotSignedIn)), captions := None)
    // the request after a failing step is never issued
    ensures configured && HasToken(token) ==>
      |run.sent| == if StepsPassed(rs) == 4 then 4 else StepsPassed(rs) + 1
    // captions appear exactly when all four steps pass, and then without an error
    ensures run.fields.captions.Some? <==> configured && HasToken(token) && StepsPassed(rs) == 4
    ensures run.fields.captions.Some? ==> run.fields.error.None? && run.fields.captions == CaptionStrings(rs.generate.body)
    ensures configured && HasToken(token) && StepsPassed(rs) < 4 ==>
      run.fields.error == Some(FailureOf(StepsPassed(rs) + 1, ReplyAt(rs, StepsPassed(rs) + 1)))
    // the URLs are kept only once the bytes are uploaded, the image id only once registered
    ensures (run.fields.presignedUrl, run.fields.cdnUrl) ==
      if |run.sent| >= 2 && StepsPassed(rs) >= 2
      then (Some(UploadTargets(rs.presign.body).value.0), Some(UploadTargets(rs.presign.body).value.1))
      else (prior.presignedUrl, prior.cdnUrl)
    ensures run.fields.imageId ==
      if |run.sent| >= 3 && StepsPassed(rs) >= 3 then RegisteredId(rs.register.body) else prior.imageId
    // each request carries what the earlier replies supplied
    ensures |run.sent| >= 1 ==> run.sent[0] == GetUploadUrl(token.value, file.mimeType)
    ensures |run.sent| >= 2 ==> run.sent[1] == PutBytes(UploadTargets(rs.presign.body).value.0, file.mimeType)
    ensures |run.sent| >= 3 ==> run.sent[2] == RegisterImage(token.value, UploadTargets(rs.presign.body).value.1, false)
    ensures |run.sent| >= 4 ==> run.sent[3] == GenerateCaptions(token.value, RegisteredId(rs.register.body).value)
  {
    var cleared := prior.(error := None, captions := None);
    if !configured then Run([], cleared.(error := Some(Str(NotConfigured))))
    else if !HasToken(token) then Run([], cleared.(error := Some(Str(NotSignedIn))))
    else
      var t := token.value;
      var s1 := [GetUploadUrl(t, file.mimeType)];
      if !Passes(1, rs.presign) then Run(s1, cleared.(error := Some(FailureOf(1, rs.presign))))
      else
        var targets := UploadTargets(rs.presign.body).value;
        var s2 := s1 + [PutBytes(targets.0, file.mimeType)];
        if !Passes(2, rs.put) then Run(s2, cleared.(error := Some(FailureOf(2, rs.put))))
        else
          var f2 := cleared.(presignedUrl := Some(targets.0), cdnUrl := Some(targets.1));
          var s3 := s2 + [RegisterImage(t, targets.1, false)];
          if !Passes(3, rs.register) then Run(s3, f2.(error := Some(FailureOf(3, rs.register))))
          else
            var id := RegisteredId(rs.register.body).value;
            var f3 := f2.(imageId := Some(id));
            var s4 := s3 + [GenerateCaptions(t, id)];
            if !Passes(4, rs.generate) then Run(s4, f3.(error := Some(FailureOf(4, rs.generate))))
            else Run(s4, f3.(captions := CaptionStrings(rs.generate.body)))
  }

  /** A PNG upload whose four replies all succeed ends with the two captions and no error. */
  lemma HappyPathScenario(token: string, prior: Fields)
    requires token != ""
    ensures var rs := Replies(
        Responded(200, "OK", Obj(map["presignedUrl" := Str("https://put"), "cdnUrl" := Str("https://cdn")])),
        Responded(200, "OK", Obj(map[])),
        Responded(200, "OK", Obj(map["imageId" := Str("abc")])),
        Responded(200, "OK", Obj(map["captions" := Arr([Str("a"), Str("b")])])));
      var run := Pipeline(true, File("cat.png", "image/png", 1024), Some(token), rs, prior);
      && run.fields.captions == Some(["a", "b"]) && run.fields.error.None?
      && run.fields.imageId == Some("abc") && |run.sent| == 4
  {
    var presign := Obj(map["presignedUrl" := Str("https://put"), "cdnUrl" := Str("https://cdn")]);
    assert UploadTargets(presign) == Some(("https://put", "https://cdn"));
    assert RegisteredId(Obj(map["imageId" := Str("abc")])) == Some("abc");
    var body := Obj(map["captions" := Arr([Str("a"), Str("b")])]);
    assert RawCaptionList(body) == Some([Str("a"), Str("b")]);
    var out := CaptionStrings(body).value;
    assert |out| == 2 && out[0] == "a" && out[1] == "b";
    assert out == ["a", "b"];
  }

  /** The same upload whose registration answers 400 with `{error: "bad url"}` ends with that
      error, no captions, no caption request, and the image id it had before. */
  lemma RegisterRejectedScenario(token: string, prior: Fields)
    requires token != ""
    ensures var rs := Replies(
        Responded(200, "OK", Obj(map["presignedUrl" := Str("https://put"), "cdnUrl" := Str("https://cdn")])),
        Responded(200, "OK", Obj(map[])),
        Responded(400, "Bad Request", Obj(map["error" := Str("bad url")])),
        Responded(200, "OK", Obj(map["captions" := Arr([Str("a"), Str("b")])])));
      var run := Pipeline(true, File("cat.png", "image/png", 1024), Some(token), rs, prior);
      && run.fields.error == Some(Str("bad url")) && run.fields.captions.None?
      && run.fields.imageId == prior.imageId && |run.sent| == 3
  {
    var body := Obj(map["error" := Str("bad url")]);
    assert Get(body, "message") == Undefined;
  }

  /** The same upload whose caption list holds an object with its own `toString` key: the
      conversion throws, so the caught message is shown and no captions are, although the
      image was registered. */
  lemma UnconvertibleCaptionScenario(token: string, prior: Fields)
    requires token != ""
    ensures var rs := Replies(
        Responded(200, "OK", Obj(map["presignedUrl" := Str("https://put"), "cdnUrl" := Str("https://cdn")])),
        Responded(200, "OK", Obj(map[])),
        Responded(200, "OK", Obj(map["imageId" := Str("abc")])),
        Responded(200, "OK", Obj(map["captions" := Arr([Obj(map["toString" := Num(1)])])])));
      var run := Pipeline(true, File("cat.png", "image/png", 1024), Some(token), rs, prior);
      && run.fields.error == Some(Str(ConversionFailure)) && run.fields.captions.None?
      && run.fields.imageId == Some("abc") && |run.sent| == 4
  {
    var presign := Obj(map["presignedUrl" := Str("https://put"), "cdnUrl" := Str("https://cdn")]);
    assert UploadTargets(presign) == Some(("https://put", "https://cdn"));
    assert RegisteredId(Obj(map["imageId" := Str("abc")])) == Some("abc");
    var item := Obj(map["toString" := Num(1)]);
    var body := Obj(map["captions" := Arr([item])]);
    assert RawCaptionList(body) == Some([item]);
    assert Get(item, "text") == Undefined && Get(item, "caption") == Undefined && Get(item, "content") == Undefined;
    assert CaptionString(item).None?;
    assert !CaptionString(RawCaptionList(body).value[0]).Some?;
    assert CaptionStrings(body).None?;
    assert CatchMessage(Some(ConversionFailure)) == ConversionFailure;
  }

  // ---------------------------------------------------------------- the component's state

  /** The state of the upload form. `configured` says whether a table client is
      available. */
  class UploadForm {
    const configured: bool
    var selectedFile: Option<File>
    var presignedUrl: Option<string>
    var cdnUrl: Option<string>
    var imageId: Option<string>
    var captions: Option<seq<string>>
    var loading: bool
    var error: Option<Value>

    function Snapshot(): Fields
      reads this
    {
      Fields(error, captions, presignedUrl, cdnUrl, imageId)
    }

    constructor (configured: bool)
      ensures this.configured == configured && selectedFile.None? && !loading
      ensures Snapshot() == Fields(None, None, None, None, None)
    {
      this.configured := configured;
      selectedFile := None;
      presignedUrl := None;
      cdnUrl := None;
      imageId := None;
      captions := None;
      loading := false;
      error := None;
    }

    /** `applyFile(file)`: a listed type is selected; any other is refused with a message;
        no file clears the selection. */
    method ApplyFile(file: Option<File>)
      modifies this`selectedFile, this`error
      ensures selectedFile == if file.Some? && IsAcceptedType(file.value.mimeType) then file else None
      ensures error == if file.Some? && !IsAcceptedType(file.value.mimeType) then Some(Str(InvalidFileType)) else None
    {
      selectedFile := None;
      error := None;
      if file.None? {
        return;
      }
      if !IsAcceptedType(file.value.mimeType) {
        error := Some(Str(InvalidFileType));
        return;
      }
      selectedFile := file;
    }

    /** `handleFileChange`: the first chosen file, if any, goes through `applyFile`. */
    method HandleFileChange(files: seq<File>)
      modifies this`selectedFile, this`error
      ensures selectedFile.Some? <==> |files| > 0 && IsAcceptedType(files[0].mimeType)
      ensures selectedFile.Some? ==> selectedFile.value == files[0]
      ensures error == if |files| > 0 && !IsAcceptedType(files[0].mimeType) then Some(Str(InvalidFileType)) else None
    {
      ApplyFile(if |files| > 0 then Some(files[0]) else None);
    }

    /** `handleUploadClick()`, given the session's access token and the replies the service
        gives. Returns the requests issued, in order. */
    method HandleUploadClick(token: Option<string>, replies: Replies) returns (sent: seq<Request>)
      modifies this
      ensures old(selectedFile).None? ==> sent == [] && unchanged(this)
      ensures old(selectedFile).Some? ==>
        var run := Pipeline(configured, old(selectedFile).value, token, replies, old(Snapshot()));
        && sent == run.sent && Snapshot() == run.fields
        && !loading && selectedFile == old(selectedFile)
    {
      var started := BeginUpload();
      if !started {
        return [];
      }
      sent := FinishUpload(token, replies);
    }

    /** The upload button: enabled only with a file selected and no upload in flight. */
    predicate CanUpload(): (enabled: bool)
      reads this
      ensures enabled <==> selectedFile.Some? && !loading
    {
      selectedFile.Some? && !loading
    }

    /** The opening of `handleUploadClick()`, before its try block: with a file selected, the
        error and the captions are cleared and the form turns busy, which disables the upload
        button until `FinishUpload` clears it. */
    method BeginUpload() returns (started: bool)
      modifies this`error, this`captions, this`loading
      ensures started <==> selectedFile.Some?
      ensures !started ==> error == old(error) && captions == old(captions) && loading == old(loading)
      ensures started ==> error.None? && captions.None? && loading && !CanUpload()
    {
      if selectedFile.None? {
        return false;
      }
      error := None;
      captions := None;
      loading := true;
      return true;
    }

    /** The rest of `handleUploadClick()`: the try block, then the `finally` that clears the busy
        flag. */
    method FinishUpload(token: Option<string>, replies: Replies) returns (sent: seq<Request>)
      requires selectedFile.Some? && loading && error.None? && captions.None?
      modifies this`error, this`captions, this`presignedUrl, this`cdnUrl, this`imageId, this`loading
      ensures var run := Pipeline(configured, selectedFile.value, token, replies, old(Snapshot()));
        sent == run.sent && Snapshot() == run.fields
      ensures !loading
    {
      sent := Attempt(selectedFile.value, token, replies);
      loading := false;
    }

    /** The try block of `handleUploadClick`, with `error` and `captions` already cleared. */
    method Attempt(file: File, token: Option<string>, replies: Replies) returns (sent: seq<Request>)
      requires error.None? && captions.None?
      modifies this`error, this`captions, this`presignedUrl, this`cdnUrl, this`imageId
      ensures var run := Pipeline(configured, file, token, replies, old(Snapshot()));
        sent == run.sent && Snapshot() == run.fields
    {
      sent := [];
      if !configured {
        error := Some(Str(NotConfigured));
        return;
      }
      if !HasToken(token) {
        error := Some(Str(NotSignedIn));
        return;
      }
      var bearer := token.value;

      // Step 1: the upload URL and the CDN URL
      sent := sent + [GetUploadUrl(bearer, file.mimeType)];
      var res := replies.presign;
      if res.Threw? {
        error := Some(Str(CatchMessage(res.message)));
        return;
      }
      if !res.Ok() {
        error := Some(ServerMessage(res.body, StatusMessage(1, res)));
        return;
      }
      var url := StringField(res.body, "presignedUrl", "presigned_url");
      var cdn := StringField(res.body, "cdnUrl", "cdn_url");
      if url.None? || cdn.None? {
        error := Some(Str(MissingUrls));
        return;
      }

      // Step 2: the bytes
      sent := sent + [PutBytes(url.value, file.mimeType)];
      var uploadRes := replies.put;
      if uploadRes.Threw? {
        error := Some(Str(CatchMessage(uploadRes.message)));
        return;
      }
      if !uploadRes.Ok() {
        error := Some(Str(StatusMessage(2, uploadRes)));
        return;
      }
      presignedUrl := url;
      cdnUrl := cdn;

      // Step 3: registration
      sent := sent + [RegisterImage(bearer, cdn.value, false)];
      var registerRes := replies.register;
      if registerRes.Threw? {
        error := Some(Str(CatchMessage(registerRes.message)));
        return;
      }
      if !registerRes.Ok() {
        error := Some(ServerMessage(registerRes.body, StatusMessage(3, registerRes)));
        return;
      }
      var id := StringField(registerRes.body, "imageId", "image_id");
      if id.None? {
        error := Some(Str(MissingImageId));
        return;
      }
      imageId := id;

      // Step 4: the captions
      sent := sent + [GenerateCaptions(bearer, id.value)];
      var captionsRes := replies.generate;
      if captionsRes.Threw? {
        error := Some(Str(CatchMessage(captionsRes.message)));
        return;
      }
      if !captionsRes.Ok() {
        error := Some(ServerMessage(captionsRes.body, StatusMessage(4, captionsRes)));
        return;
      }
      var rawList := RawCaptionList(captionsRes.body);
      if rawList.None? {
        error := Some(Str(NotAnArray));
        return;
      }
      // `rawList.map(…)`: converting an element may throw into the catch block
      var list := CaptionStrings(captionsRes.body);
      if list.None? {
        error := Some(Str(CatchMessage(Some(ConversionFailure))));
        return;
      }
      captions := list;
    }
  }
}
